=== FILE: README.md ===
# Elevator dispatcher and weapon state machine

A Dafny model of two pieces of a Unity VR game.

**The elevator dispatcher.** The game has one elevator car and a call point on every floor.
- Each call is a floor request: a floor index plus the location of that floor.
- The dispatcher keeps two queues of requests:
  - an "up" queue, sorted by floor index ascending;
  - a "down" queue, sorted ascending and then reversed.
- It holds a sweep direction, the current floor, a movement switch and the active target.
- It follows a SCAN (elevator algorithm) policy. It serves the head of the queue for its current direction. It turns around only when that queue runs dry. It goes idle when both queues are empty.
- A call for the floor the car is standing at is parked in the queue opposite the current direction. It raises a "same floor called" notification and, when the door can open, resets the call point's toggles.

**The weapon.** This is the base-class ammunition, reload and fire-cooldown machine every weapon inherits.
- A fire-rate timer counts down every frame.
- A shot is possible once the timer is negative.
- A loaded weapon spends a round, but only while the game is in its Play state.
- A reload empties the magazine and counts a scaled clock up to the reload time, then refills the magazine.

**How the model is built.**
- Both machines are pure transition functions over immutable state.
- Every notification, event and callback the source raises is appended, in order, to a `trace` kept in the state. Properties about what is announced are therefore properties about the trace.

Modules:
- `Requests` (`requests.dfy`): the request record, the two queue orders, and the sort the queues use.
- `Elevator` (`elevator.dfy`): the dispatcher state and every dispatcher operation.
- `ElevatorProofs` (`elevator_proofs.dfy`): the dispatcher invariant, idempotence, the sweep (SCAN) order, and the worked scenarios.
- `Weapon` (`weapon.dfy`): the weapon state and its operations.
- `WeaponProofs` (`weapon_proofs.dfy`): behaviour over many frames, namely cooldown and the reload cycle.

Behaviour of the dispatcher code worth knowing up front:
- **Duplicates are whole-value.** `List.Contains` compares every field of the request struct. `Req` therefore carries both the floor index and the location handle. Two requests with the same floor index but different handles are both queued.
- **A new car heads Down.** `Awake` leaves the direction flag at its default of false, so a new car heads Down at floor 0. The first call above an idle car turns it Up (`ElevatorProofs.FirstCallAbove`).
- **First call into an empty car.** When the down queue is empty, `AddingToUpList` first sets the direction to Down. `SetTargetFloor` then immediately turns it Up again. The model keeps both steps.

## Model

| member | source | states |
|---|---|---|
| Requests.Insert | CElevatorSystem.cs:293-297 | inserting a request into an ascending queue keeps it ascending and makes it one longer |
| Requests.InsertPermutes | CElevatorSystem.cs:293-297 | insertion adds exactly the new request and loses none of the queued ones (multiset equality) |
| Requests.InsertKeepsNoDup | CElevatorSystem.cs:293-297 | inserting a request not yet queued keeps the queue duplicate-free |
| Requests.SortAscending | CElevatorSystem.cs:294-297 | the up-queue sort yields a queue ordered by floor index, of the same length |
| Requests.SortAscendingPermutes | CElevatorSystem.cs:294-297 | the up-queue sort is a permutation of its input |
| Requests.SortAscendingKeepsNoDup | CElevatorSystem.cs:294-297 | sorting a duplicate-free queue keeps it duplicate-free |
| Requests.SortAscendingKeepsOrdered | CElevatorSystem.cs:294-297 | sorting an already ordered queue returns it unchanged |
| Requests.InsertAtBack | CElevatorSystem.cs:293-297 | a request no lower than any queued one is placed at the back |
| Requests.InsertAtFront | CElevatorSystem.cs:293-297 | a request below the head is placed at the front |
| Requests.Reverse | CElevatorSystem.cs:326 | reversal maps position i to position n-1-i |
| Requests.ReversePermutes | CElevatorSystem.cs:326 | reversal keeps exactly the same elements |
| Requests.SortDescending | CElevatorSystem.cs:321-326 | sort then reverse yields a queue ordered highest floor first, of the same length |
| Requests.SortDescendingPermutes | CElevatorSystem.cs:321-326 | the down-queue sort is a permutation of its input |
| Requests.SortDescendingKeepsNoDup | CElevatorSystem.cs:321-326 | sorting a duplicate-free down queue keeps it duplicate-free |
| Requests.NoDupAppend | CElevatorSystem.cs:283-293 | appending a request that the Contains check found absent keeps the queue duplicate-free |
| Requests.TailKeepsOrder | CElevatorSystem.cs:129-142 | removing the head of a queue keeps it ordered and duplicate-free, and the removed request is no longer in it |
| Elevator.Awake | CElevatorSystem.cs:77-83 | the new car is idle with both queues empty, heads Down at floor 0, may move, has announced nothing, and satisfies the dispatcher invariant |
| Elevator.SetCurrentFloor | CElevatorSystem.cs:51-57 | assigning the floor changes only the floor, always announces "floor changed" once, and keeps the invariant |
| Elevator.SetCanMove | CElevatorSystem.cs:40-46 | the movement switch changes nothing else and announces nothing |
| Elevator.Start | CElevatorSystem.cs:85-94 | with a starting floor it is exactly the floor assignment: the current floor becomes that floor, "floor changed" is announced once, and queues, direction, switch and target are unchanged; without one nothing changes |
| Elevator.HasTargetsLeft | CElevatorSystem.cs:335-338 | under the invariant, the car has targets left exactly when some queue is non-empty |
| Elevator.CallStartedMove | CElevatorSystem.cs:154-160 | "started moving" is announced exactly when the car is idle, and nothing else changes |
| Elevator.SetTargetFloor | CElevatorSystem.cs:168-224 | re-targeting idles the car exactly when both queues are empty; otherwise it targets the head of the queue of the resulting direction, keeps the direction when both queues have work, and turns toward the only non-empty queue; queues, floor and trace are untouched |
| Elevator.AddingToUpList | CElevatorSystem.cs:281-302 | afterwards the request is queued upwards; an already queued request changes nothing; a new one is added exactly once with the queue kept ordered and duplicate-free, the car has a target at the head of its queue, and "started moving" is announced exactly when the car was idle |
| Elevator.AddingToDownList | CElevatorSystem.cs:309-331 | the same for the downward queue, ordered highest floor first |
| Elevator.SameFloorCall | CElevatorSystem.cs:248-273 | a same-floor call goes only to the queue opposite the direction, unless the current direction's queue already holds it; it is added exactly once; "same floor called" is always announced, followed by the toggle reset exactly when the door can open; apart from the trace the car ends exactly as the opposite-queue insertion leaves it (so a car already sweeping keeps its direction and target), or unchanged when the current queue already holds the request |
| Elevator.AddPointToQueue | CElevatorSystem.cs:230-274 | a call above the car is exactly an upward insertion and one below exactly a downward insertion (so the queue keeps its earlier requests); a call above goes only to the up queue, one below goes only to the down queue, one at the current floor takes the same-floor path; a repeated call for another floor changes nothing |
| Elevator.Arrive | CElevatorSystem.cs:122-152 | an arrival removes exactly the target from the head of its queue, leaves the other queue alone, runs the target's callback with the direction and then announces the arrival; the direction is kept while its queue has work and turns when only the other has work |
| Elevator.Inv | CElevatorSystem.cs:168-224 | the dispatcher invariant (queues ordered and duplicate-free, idle exactly when both are empty, target at the head of the current queue) puts the target at the lowest queued floor when heading up and the highest when heading down |
| Elevator.ArrivalEnabled | CElevatorSystem.cs:102 | the frame guard holds exactly when the car may move and has targets left; under the invariant, when it may move and some queue is non-empty |
| Elevator.Update | CElevatorSystem.cs:100-115 | a frame completes an arrival only when the car may move, has a target and has converged on it; otherwise nothing changes |
| ElevatorProofs.SetTargetFloorTurnsOnlyWhenDry | CElevatorSystem.cs:184-206 | the car changes direction if and only if the queue it is sweeping is empty and the other one is not |
| ElevatorProofs.SetTargetFloorKeepsInv | CElevatorSystem.cs:168-224 | re-targeting ordered queues always establishes the dispatcher invariant |
| ElevatorProofs.AddingToUpListKeepsInv | CElevatorSystem.cs:281-302 | queuing upwards preserves the dispatcher invariant |
| ElevatorProofs.AddingToDownListKeepsInv | CElevatorSystem.cs:309-331 | queuing downwards preserves the dispatcher invariant |
| ElevatorProofs.SameFloorCallKeepsInv | CElevatorSystem.cs:248-273 | the same-floor path preserves the dispatcher invariant |
| ElevatorProofs.AddPointToQueueKeepsInv | CElevatorSystem.cs:230-274 | every call preserves the dispatcher invariant |
| ElevatorProofs.ArriveKeepsInv | CElevatorSystem.cs:122-152 | an arrival preserves the invariant, and the served request is gone from the queue it was served from |
| ElevatorProofs.UpdateKeepsInv | CElevatorSystem.cs:100-115 | every frame preserves the dispatcher invariant |
| ElevatorProofs.AddingToUpListIdempotent | CElevatorSystem.cs:283-286 | adding the same request upwards twice is the same as adding it once |
| ElevatorProofs.AddingToDownListIdempotent | CElevatorSystem.cs:311-314 | adding the same request downwards twice is the same as adding it once |
| ElevatorProofs.AddPointToQueueIdempotent | CElevatorSystem.cs:230-247 | resubmitting a call for another floor changes nothing and announces nothing more |
| ElevatorProofs.StartedMovingOnlyFromIdle | CElevatorSystem.cs:154-160 | a call announces "started moving" if and only if the car was idle and the call queued a request |
| ElevatorProofs.Arrivals | CElevatorSystem.cs:122-152 | repeated arrivals, stopping once the car is idle, never change the floor or the movement switch, only extend the trace, and each arrival adds to it |
| ElevatorProofs.ArrivalsKeepInv | CElevatorSystem.cs:100-152 | any number of arrivals preserves the dispatcher invariant |
| ElevatorProofs.SweepEmptiesQueue | CElevatorSystem.cs:122-152 | as many arrivals as the current queue holds empty it, leave the other queue unchanged, and leave the car turned around or idle |
| ElevatorProofs.SweepServesQueueInOrder | CElevatorSystem.cs:122-152 | those arrivals serve the current queue head first, each with one callback in the sweep direction followed by one arrival notification |
| ElevatorProofs.SweepStep | CElevatorSystem.cs:122-152 | an arrival with more work in the current direction keeps the direction and targets the next request of the same queue |
| ElevatorProofs.SweepLast | CElevatorSystem.cs:122-152 | the arrival that empties the current queue turns the car toward the other queue or idles it |
| ElevatorProofs.ScanOrder | CElevatorSystem.cs:122-224 | without new calls, the car serves its whole current queue in order, then the whole opposite queue in order, and ends idle with both queues empty |
| ElevatorProofs.AddingToUpListInsertsInPlace | CElevatorSystem.cs:293-297 | on an ordered up queue, append-then-sort is insertion of the new request at its place |
| ElevatorProofs.CallAboveInsertsInPlace | CElevatorSystem.cs:230-302 | a new call above the car is inserted at its place in the up queue, and an idle car with no down work heads up for the lowest request |
| ElevatorProofs.FirstCallAbove | CElevatorSystem.cs:230-302 | a call above an idle, empty car becomes its only request and its target, turns it Up and announces "started moving" |
| ElevatorProofs.SecondCallAboveBelowHead | CElevatorSystem.cs:230-302 | a second call below the queued one goes in front of it and becomes the target, announcing nothing |
| ElevatorProofs.ThirdCallAboveAll | CElevatorSystem.cs:230-302 | a call above both queued ones goes to the back, and the target is unchanged |
| ElevatorProofs.ScenarioThreeCallsAbove | CElevatorSystem.cs:230-302 | from an idle, empty car, three calls above it arriving middle, lowest, highest (floors 3, 1, 5 at floor 0) give the up queue lowest, middle, highest, target the lowest, and a single "started moving" |
| ElevatorProofs.ScenarioServeThreeAbove | CElevatorSystem.cs:122-152 | serving that queue targets the middle floor, then the highest, then idles, with three upward callbacks and three arrivals in floor order |
| ElevatorProofs.ScenarioTurnAround | CElevatorSystem.cs:184-216 | at floor 5 going Up, with an empty up queue and down queue [3, 1], the car turns Down and targets 3, not 1 |
| Weapon.Awake | AWeapon.cs:284-291 | a new weapon has a full magazine, both timers at zero, no reload and no events, and satisfies the weapon invariant exactly when the magazine size is not negative |
| Weapon.HandleFiring | AWeapon.cs:444-450 | firing restarts the cooldown at the fire rate and records the shot time, and changes nothing else |
| Weapon.Fire | AWeapon.cs:499-532 | before the cooldown runs out nothing happens; a loaded weapon spends a round only in Play, restarts the cooldown and raises OnFire with the remaining ammo; an empty or reloading weapon only raises OnFireOutOfAmmo; the invariant is kept |
| Weapon.Reload | AWeapon.cs:540-565 | a reload starts only in Play, when not reloading and the magazine is not full; it then empties the magazine, restarts the reload clock and raises OnStartReload(0); otherwise nothing changes |
| Weapon.ReloadMechanics | AWeapon.cs:433-436 | the basic reload fills the magazine and changes nothing else |
| Weapon.Reloading | AWeapon.cs:405-425 | the reload clock advances by the scaled delta; once it passes the reload time the magazine is full, OnEndReload raises the new count and the reload is over; otherwise ammo, flag and events are unchanged |
| Weapon.Update | AWeapon.cs:337-346 | each frame the cooldown falls by the frame delta and only a reload in progress advances; a weapon that is not reloading changes in nothing but the cooldown |
| WeaponProofs.Run | AWeapon.cs:337-346 | any number of frames keeps the weapon invariant and the time of the last shot |
| WeaponProofs.RunCoolsDown | AWeapon.cs:340 | after any number of frames the cooldown has fallen by exactly their total frame time |
| WeaponProofs.RunWhileNotReloading | AWeapon.cs:343-346 | frames alone never start a reload, spend ammo or raise events |
| WeaponProofs.ReloadEndsWhenTimePasses | AWeapon.cs:405-425 | a reload is still in progress after the frames if and only if no frame passed or the scaled time has not passed the reload time; once over, the magazine is full and OnEndReload was raised exactly once |
| WeaponProofs.CooldownBlocksNextShot | AWeapon.cs:499-503 | after a shot the trigger does nothing until more than the fire rate of frame time has passed |
| WeaponProofs.StillReloadingBeforeTime | AWeapon.cs:405-425 | for any frames, a reload still in progress has not had its clock pass the reload time, and has neither refilled nor announced anything |
| WeaponProofs.EndedReloadRefilled | AWeapon.cs:405-425 | for any frames, a reload that has ended left a full magazine and exactly one OnEndReload |
| WeaponProofs.ReloadCycle | AWeapon.cs:540-565 | starting a reload in Play and then playing frames whose scaled time adds up past the reload time (any signs allowed) ends with a full magazine and exactly one OnStartReload(0) and one OnEndReload |

## Left out

- The car's continuous motion is not modelled. This covers the `Mathf.Lerp` approach, the speed, `Time.deltaTime`, and `CUtilityMath.AlmostEquals` against the arrival threshold. `Elevator.Update` takes a `converged` flag in their place.
- Elevator.Start: the placement of the car's transform at the starting floor is not modelled. Only the floor assignment and its notification are.
- Elevator.HasTargetsLeft: the source tests the target's transform against null. The model reads `target == None` as that idle marker. A request whose own floor transform is null is therefore not modelled; the source would treat it as idle.
- Elevator.Arrive: requires an active target. The source calls it only from `Update`, behind the same guard.
- Debug prints under `DEBUGGING_ELEVATOR` are left out. They have no effect on state.
- Unity events and C# events are recorded in the trace whether or not anyone subscribes. The source's null checks on subscriber lists only suppress a call with no listeners.
- Listeners and request callbacks are assumed never to call back into the car. In the source they run synchronously inside the operation. For example, `m_onArrived` fires after the pop but before `SetTargetFloor` (CElevatorSystem.cs:150-151), while the served request is still the target. A listener that queued a call at that point would find the car not idle, and no "started moving" would be announced. `ElevatorProofs.StartedMovingOnlyFromIdle` does not cover such re-entrant calls.
- The hand payload of OnFire and OnFireOutOfAmmo is left out. It is the holding hand, which is engine data.
- Requests.SortAscending: .NET `List.Sort` is not stable. The model uses a stable insertion sort. Among requests with equal floor index the model fixes one order, where the source may produce any.
- `SFloorPointData` is not part of this model; `Req` stands in for it. Whether two call points for the same floor produce different request values depends on that struct's fields. So the model does not say whether such calls are deduplicated.
- The door gateway `PCanBeOpened` is a parameter of the same-floor path. The request's toggle callbacks appear only as trace entries; their effect on the floor buttons is not modelled.
- Weapon timers are `float` in the source and `real` here; rounding is not modelled.
- `Time.time` and the game's scaled delta time are parameters. The Play game state is a boolean parameter.
- `FireMechanics` is abstract in the source and is left out. It is assumed not to change the ammo, the timers or the reload flag. The source runs it inside `HandleFiring`, before OnFire is raised, and a subclass could write those protected fields.
- Overrides of the virtual `Reload`, `ReloadMechanics`, `HandleFiring`, `Update` and `Awake` are not modelled. The model is the base class's behaviour. `Weapon.Fire`'s OnFire count, `Weapon.Reloading`'s full magazine and `WeaponProofs.ReloadCycle` hold only for weapons that keep it.
- The physics and data-tracker lookups, the layer mask and `Start`'s head and raycast wiring are left out. So are `CheckActive`, `UpdateWeaponData` and the hit-event forwarding helpers. They are engine glue with no effect on ammo or timers.
- WeaponProofs.ReloadEndsWhenTimePasses assumes every frame's scaled delta is non-negative. The source does not check this, but a game clock does not run backwards.
- CWritingAndErasing.cs, CSyncManager.cs and CVRInteracting.cs are not part of this model.

=== FILE: elevator.dfy ===
/**
  The single-car elevator dispatcher: two request queues, a sweep
  direction, the current floor, a movement switch and the active target.

  Every operation is a pure transition from one `Car` to the next. The
  zero-argument notifications and the per-request callbacks the dispatcher
  fires are appended, in order, to the car's `trace`.
 */
module Elevator {
  import opened Requests

  datatype Option<T> = None | Some(value: T)

  datatype Direction = Up | Down

  /** What the dispatcher makes observable, in the order it happens. */
  datatype Event =
    | Arrived                                  // arrival notification
    | FloorChanged                             // the current floor was assigned
    | StartedMoving                            // first target taken while idle
    | SameFloorCalled                          // a call for the floor the car is at
    | ArrivalToggles(req: Req, goingUp: bool)  // the served request's arrival callback
    | TogglesState(req: Req, state: bool)      // a call point's toggle-state callback

  /**
    The dispatcher state. `target == None` is the idle car; `up` is served
    lowest floor first and `down` highest floor first.
   */
  datatype Car = Car(
    up: seq<Req>,
    down: seq<Req>,
    dir: Direction,
    currentFloor: int,
    canMove: bool,
    target: Option<Req>,
    trace: seq<Event>)

  function Opposite(d: Direction): Direction {
    if d == Up then Down else Up
  }

  /** The queue served while travelling in direction `d`. */
  function Queue(c: Car, d: Direction): seq<Req> {
    if d == Up then c.up else c.down
  }

  /** Both queues ordered for their sweep and free of duplicates. */
  predicate Ordered(c: Car) {
    && Ascending(c.up) && NoDup(c.up)
    && Descending(c.down) && NoDup(c.down)
  }

  /**
    The car is idle exactly when both queues are empty, and otherwise heads
    for the first request of the queue of its current direction.
   */
  predicate Targeted(c: Car) {
    && (c.target.None? <==> c.up == [] && c.down == [])
    && (c.target.Some? ==> Queue(c, c.dir) != [] && c.target.value == Queue(c, c.dir)[0])
  }

  /**
    The dispatcher's invariant. Under it the target is the lowest queued
    floor when heading up and the highest when heading down.
   */
  function Inv(c: Car): (b: bool)
    ensures b && c.target.Some? && c.dir == Up ==>
      forall i :: 0 <= i < |c.up| ==> c.target.value.floorIndex <= c.up[i].floorIndex
    ensures b && c.target.Some? && c.dir == Down ==>
      forall i :: 0 <= i < |c.down| ==> c.target.value.floorIndex >= c.down[i].floorIndex
  {
    Ordered(c) && Targeted(c)
  }

  /** The state right after construction: no requests, free to move. */
  function Awake(): (c: Car)
    ensures Inv(c)
    ensures c.target.None? && c.canMove && c.trace == []
    ensures c.up == [] && c.down == [] && c.dir == Down && c.currentFloor == 0
  {
    Car([], [], Down, 0, true, None, [])
  }

  /** Assigns the current floor; every assignment is announced. */
  function SetCurrentFloor(c: Car, floor: int): (r: Car)
    ensures r.currentFloor == floor
    ensures r.trace == c.trace + [FloorChanged]
    ensures r.(currentFloor := c.currentFloor, trace := c.trace) == c
    ensures Inv(c) ==> Inv(r)
  {
    c.(currentFloor := floor, trace := c.trace + [FloorChanged])
  }

  /** Turns movement on or off; nothing else changes and nothing is announced. */
  function SetCanMove(c: Car, canMove: bool): (r: Car)
    ensures r.canMove == canMove
    ensures r.(canMove := c.canMove) == c
    ensures Inv(c) ==> Inv(r)
  {
    c.(canMove := canMove)
  }

  /** Places the car at its starting floor, when one is configured. */
  function Start(c: Car, startingFloor: Option<int>): (r: Car)
    ensures startingFloor.None? ==> r == c
    ensures startingFloor.Some? ==> r == SetCurrentFloor(c, startingFloor.value)
    ensures startingFloor.Some? ==>
      r.currentFloor == startingFloor.value && r.trace == c.trace + [FloorChanged]
    ensures Inv(c) ==> Inv(r)
  {
    match startingFloor
    case None => c
    case Some(floor) => SetCurrentFloor(c, floor)
  }

  /** True while the car has somewhere to go. */
  function HasTargetsLeft(c: Car): (b: bool)
    ensures Targeted(c) ==> (b <==> c.up != [] || c.down != [])
  {
    c.target.Some?
  }

  /** Announces the start of a journey, but only from an idle car. */
  function CallStartedMove(c: Car): (r: Car)
    ensures r.trace == c.trace + (if c.target.None? then [StartedMoving] else [])
    ensures r.(trace := c.trace) == c
  {
    if c.target.None? then c.(trace := c.trace + [StartedMoving]) else c
  }

  /**
    The sweep rule: go idle when nothing is queued; otherwise keep the
    direction while its queue has work, turn around when it has none, and
    head for the first request of the queue of the resulting direction.
   */
  function SetTargetFloor(c: Car): (r: Car)
    ensures r.up == c.up && r.down == c.down
    ensures r.currentFloor == c.currentFloor && r.canMove == c.canMove && r.trace == c.trace
    ensures r.target.None? <==> c.up == [] && c.down == []
    ensures r.target.Some? ==> Queue(r, r.dir) != [] && r.target.value == Queue(r, r.dir)[0]
    ensures c.up != [] && c.down != [] ==> r.dir == c.dir
    ensures c.up == [] && c.down != [] ==> r.dir == Down
    ensures c.up != [] && c.down == [] ==> r.dir == Up
    ensures c.up == [] && c.down == [] ==> r.dir == c.dir
  {
    if c.up == [] && c.down == [] then
      c.(target := None)
    else
      var afterUpCheck := if c.up == [] && c.dir == Up then Down else c.dir;
      var dir := if c.down == [] && afterUpCheck == Down then Up else afterUpCheck;
      assert dir == Down ==> afterUpCheck == Down && c.down != [];
      c.(dir := dir, target := Some(if dir == Up then c.up[0] else c.down[0]))
  }

  /**
    Queues a request for the upward sweep. A request already queued there
    changes nothing.
   */
  function AddingToUpList(c: Car, x: Req): (r: Car)
    ensures x in r.up
    ensures x in c.up ==> r == c
    ensures x !in c.up ==>
      && multiset(r.up) == multiset(c.up) + multiset{x}
      && |r.up| == |c.up| + 1
      && Ascending(r.up)
      && (NoDup(c.up) ==> NoDup(r.up))
      && r.down == c.down
      && (c.down == [] ==> r.dir == Up)
      && (c.down != [] ==> r.dir == c.dir)
      && r.target.Some? && Queue(r, r.dir) != [] && r.target.value == Queue(r, r.dir)[0]
      && r.trace == c.trace + (if c.target.None? then [StartedMoving] else [])
      && r.currentFloor == c.currentFloor && r.canMove == c.canMove
  {
    if x in c.up then
      c
    else
      var turned := if c.down == [] then c.(dir := Down) else c;
      var queue := SortAscending(c.up + [x]);
      SortAscendingPermutes(c.up + [x]);
      assert x in multiset(queue);
      assert NoDup(c.up) ==> NoDup(queue) by {
        if NoDup(c.up) {
          NoDupAppend(c.up, x);
          SortAscendingKeepsNoDup(c.up + [x]);
        }
      }
      var added := turned.(up := queue);
      var started := CallStartedMove(added);
      assert started.up == queue && started.down == c.down;
      assert started.trace == c.trace + (if c.target.None? then [StartedMoving] else []);
      SetTargetFloor(started)
  }

  /**
    Queues a request for the downward sweep. A request already queued there
    changes nothing.
   */
  function AddingToDownList(c: Car, x: Req): (r: Car)
    ensures x in r.down
    ensures x in c.down ==> r == c
    ensures x !in c.down ==>
      && multiset(r.down) == multiset(c.down) + multiset{x}
      && |r.down| == |c.down| + 1
      && Descending(r.down)
      && (NoDup(c.down) ==> NoDup(r.down))
      && r.up == c.up
      && (c.up == [] ==> r.dir == Down)
      && (c.up != [] ==> r.dir == c.dir)
      && r.target.Some? && Queue(r, r.dir) != [] && r.target.value == Queue(r, r.dir)[0]
      && r.trace == c.trace + (if c.target.None? then [StartedMoving] else [])
      && r.currentFloor == c.currentFloor && r.canMove == c.canMove
  {
    if x in c.down then
      c
    else
      var turned := if c.up == [] then c.(dir := Up) else c;
      var queue := SortDescending(c.down + [x]);
      SortDescendingPermutes(c.down + [x]);
      assert x in multiset(queue);
      assert NoDup(c.down) ==> NoDup(queue) by {
        if NoDup(c.down) {
          NoDupAppend(c.down, x);
          SortDescendingKeepsNoDup(c.down + [x]);
        }
      }
      var added := turned.(down := queue);
      var started := CallStartedMove(added);
      assert started.down == queue && started.up == c.up;
      assert started.trace == c.trace + (if c.target.None? then [StartedMoving] else []);
      SetTargetFloor(started)
  }

  /** Some request was queued between `c` and `r`. */
  predicate Grew(c: Car, r: Car) {
    |r.up| + |r.down| > |c.up| + |c.down|
  }

  /**
    A call for the floor the car is at: it is parked in the queue opposite
    the current direction unless the queue of the current direction already
    holds it; it is always announced; and its call point's toggles are
    reset when the door can be opened.
   */
  function SameFloorCall(c: Car, x: Req, doorCanOpen: bool): (r: Car)
    ensures r.currentFloor == c.currentFloor && r.canMove == c.canMove
    ensures c.dir == Up ==> r.up == c.up && (if x in c.up then r.down == c.down else x in r.down)
    ensures c.dir == Up && x !in c.up && x !in c.down ==>
      multiset(r.down) == multiset(c.down) + multiset{x}
    ensures c.dir == Up && x in c.down ==> r.down == c.down
    ensures c.dir == Down ==> r.down == c.down && (if x in c.down then r.up == c.up else x in r.up)
    ensures c.dir == Down && x !in c.down && x !in c.up ==>
      multiset(r.up) == multiset(c.up) + multiset{x}
    ensures c.dir == Down && x in c.up ==> r.up == c.up
    ensures c.dir == Up && x !in c.up ==>
      r.(trace := AddingToDownList(c, x).trace) == AddingToDownList(c, x)
    ensures c.dir == Down && x !in c.down ==>
      r.(trace := AddingToUpList(c, x).trace) == AddingToUpList(c, x)
    ensures (c.dir == Up && x in c.up) || (c.dir == Down && x in c.down) ==>
      r.(trace := c.trace) == c
    ensures r.trace == c.trace
      + (if c.target.None? && Grew(c, r) then [StartedMoving] else [])
      + [SameFloorCalled]
      + (if doorCanOpen then [TogglesState(x, false)] else [])
  {
    var queued :=
      if c.dir == Up && x !in c.up then AddingToDownList(c, x)
      else if c.dir == Down && x !in c.down then AddingToUpList(c, x)
      else c;
    var announced := queued.(trace := queued.trace + [SameFloorCalled]);
    if doorCanOpen then announced.(trace := announced.trace + [TogglesState(x, false)])
    else announced
  }

  /**
    Routes a call by comparing its floor with the current one: above goes
    to the upward queue, below to the downward queue, and the current
    floor takes the same-floor path.
   */
  function AddPointToQueue(c: Car, x: Req, doorCanOpen: bool): (r: Car)
    ensures r.currentFloor == c.currentFloor && r.canMove == c.canMove
    ensures x.floorIndex > c.currentFloor ==> r == AddingToUpList(c, x)
    ensures x.floorIndex < c.currentFloor ==> r == AddingToDownList(c, x)
    ensures x.floorIndex > c.currentFloor ==>
      r.down == c.down && x in r.up && (x in c.up ==> r == c)
      && r.trace == c.trace + (if c.target.None? && Grew(c, r) then [StartedMoving] else [])
    ensures x.floorIndex < c.currentFloor ==>
      r.up == c.up && x in r.down && (x in c.down ==> r == c)
      && r.trace == c.trace + (if c.target.None? && Grew(c, r) then [StartedMoving] else [])
    ensures x.floorIndex == c.currentFloor ==> r == SameFloorCall(c, x, doorCanOpen)
  {
    if x.floorIndex > c.currentFloor then
      AddingToUpList(c, x)
    else if x.floorIndex < c.currentFloor then
      AddingToDownList(c, x)
    else
      SameFloorCall(c, x, doorCanOpen)
  }

  /**
    Serves the active target: drops the head of the queue of the current
    direction, runs the target's arrival callback with that direction,
    announces the arrival and chooses the next target.
   */
  function Arrive(c: Car): (r: Car)
    requires c.target.Some?
    ensures r.currentFloor == c.currentFloor && r.canMove == c.canMove
    ensures r.trace == c.trace + [ArrivalToggles(c.target.value, c.dir == Up), Arrived]
    ensures Targeted(c) ==>
      && Queue(c, c.dir) == [c.target.value] + Queue(r, c.dir)
      && Queue(r, Opposite(c.dir)) == Queue(c, Opposite(c.dir))
    ensures Targeted(c) && Queue(r, c.dir) != [] ==> r.dir == c.dir
    ensures Targeted(c) && Queue(r, c.dir) == [] && Queue(r, Opposite(c.dir)) != [] ==>
      r.dir == Opposite(c.dir)
    ensures Targeted(r)
  {
    var t := c.target.value;
    var popped :=
      if c.dir == Up then (if |c.up| >= 1 then c.(up := c.up[1..]) else c)
      else (if |c.down| >= 1 then c.(down := c.down[1..]) else c);
    var announced := popped.(trace := popped.trace + [ArrivalToggles(t, c.dir == Up), Arrived]);
    SetTargetFloor(announced)
  }

  /** The car may complete an arrival only when it may move and has a target. */
  function ArrivalEnabled(c: Car): (b: bool)
    ensures b <==> c.canMove && HasTargetsLeft(c)
    ensures Targeted(c) ==> (b <==> c.canMove && (c.up != [] || c.down != []))
  {
    c.canMove && c.target.Some?
  }

  /**
    One frame. The car's continuous approach to its target is abstracted
    into `converged`, which says whether it is now within the arrival
    threshold of the target's position.
   */
  function Update(c: Car, converged: bool): (r: Car)
    ensures !(ArrivalEnabled(c) && converged) ==> r == c
    ensures ArrivalEnabled(c) && converged ==> r == Arrive(c)
  {
    if ArrivalEnabled(c) && converged then Arrive(c) else c
  }
}

=== FILE: elevator_proofs.dfy ===
/**
  Properties of the dispatcher that relate several operations: the
  invariant every public operation preserves, the sweep order in which
  queued requests are served, and two worked scenarios.
 */
module ElevatorProofs {
  import opened Requests
  import opened Elevator

  /** The car turns around only when the queue it is sweeping has run dry. */
  lemma SetTargetFloorTurnsOnlyWhenDry(c: Car)
    ensures SetTargetFloor(c).dir != c.dir <==>
      Queue(c, c.dir) == [] && Queue(c, Opposite(c.dir)) != []
  {
    var r := SetTargetFloor(c);
    if c.dir == Up {
      assert Queue(c, c.dir) == c.up && Queue(c, Opposite(c.dir)) == c.down;
    } else {
      assert Queue(c, c.dir) == c.down && Queue(c, Opposite(c.dir)) == c.up;
    }
  }

  /** Re-targeting only (re-)establishes the invariant; it never breaks it. */
  lemma SetTargetFloorKeepsInv(c: Car)
    requires Ascending(c.up) && NoDup(c.up) && Descending(c.down) && NoDup(c.down)
    ensures Inv(SetTargetFloor(c))
  {
  }

  lemma AddingToUpListKeepsInv(c: Car, x: Req)
    requires Inv(c)
    ensures Inv(AddingToUpList(c, x))
  {
  }

  lemma AddingToDownListKeepsInv(c: Car, x: Req)
    requires Inv(c)
    ensures Inv(AddingToDownList(c, x))
  {
  }

  lemma SameFloorCallKeepsInv(c: Car, x: Req, doorCanOpen: bool)
    requires Inv(c)
    ensures Inv(SameFloorCall(c, x, doorCanOpen))
  {
    var queued :=
      if c.dir == Up && x !in c.up then AddingToDownList(c, x)
      else if c.dir == Down && x !in c.down then AddingToUpList(c, x)
      else c;
    if c.dir == Up && x !in c.up {
      AddingToDownListKeepsInv(c, x);
    } else if c.dir == Down && x !in c.down {
      AddingToUpListKeepsInv(c, x);
    }
    var r := SameFloorCall(c, x, doorCanOpen);
    assert r.(trace := queued.trace) == queued;
    InvIgnoresTrace(queued, r.trace);
  }

  /** The invariant does not look at the trace. */
  lemma InvIgnoresTrace(c: Car, t: seq<Event>)
    requires Inv(c)
    ensures Inv(c.(trace := t))
  {
  }

  lemma AddPointToQueueKeepsInv(c: Car, x: Req, doorCanOpen: bool)
    requires Inv(c)
    ensures Inv(AddPointToQueue(c, x, doorCanOpen))
  {
    if x.floorIndex > c.currentFloor {
      AddingToUpListKeepsInv(c, x);
    } else if x.floorIndex < c.currentFloor {
      AddingToDownListKeepsInv(c, x);
    } else {
      SameFloorCallKeepsInv(c, x, doorCanOpen);
    }
  }

  /**
    An arrival serves the target exactly once: it leaves the queue it was
    the head of, the other queue is untouched, and the invariant holds again.
   */
  lemma ArriveKeepsInv(c: Car)
    requires Inv(c) && c.target.Some?
    ensures Inv(Arrive(c))
    ensures c.target.value !in Queue(Arrive(c), c.dir)
  {
    var q := Queue(c, c.dir);
    TailKeepsOrder(q);
    var r := Arrive(c);
    assert Queue(r, c.dir) == q[1..];
  }

  lemma UpdateKeepsInv(c: Car, converged: bool)
    requires Inv(c)
    ensures Inv(Update(c, converged))
  {
    if ArrivalEnabled(c) && converged {
      ArriveKeepsInv(c);
    }
  }

  /** A second identical call to the upward queue changes nothing. */
  lemma AddingToUpListIdempotent(c: Car, x: Req)
    ensures AddingToUpList(AddingToUpList(c, x), x) == AddingToUpList(c, x)
  {
  }

  /** A second identical call to the downward queue changes nothing. */
  lemma AddingToDownListIdempotent(c: Car, x: Req)
    ensures AddingToDownList(AddingToDownList(c, x), x) == AddingToDownList(c, x)
  {
  }

  /** Resubmitting a call for another floor changes nothing and announces nothing. */
  lemma AddPointToQueueIdempotent(c: Car, x: Req, doorCanOpen: bool)
    requires x.floorIndex != c.currentFloor
    ensures var once := AddPointToQueue(c, x, doorCanOpen);
      AddPointToQueue(once, x, doorCanOpen) == once
  {
  }

  lemma AppendAssoc<T>(a: seq<T>, b: seq<T>, c: seq<T>)
    ensures (a + b) + c == a + (b + c)
  {
  }

  lemma DropPrefix<T>(a: seq<T>, b: seq<T>)
    ensures (a + b)[|a|..] == b
  {
  }

  /** "started-moving" is announced exactly when a call is queued into an idle car. */
  lemma StartedMovingOnlyFromIdle(c: Car, x: Req, doorCanOpen: bool)
    ensures var r := AddPointToQueue(c, x, doorCanOpen);
      StartedMoving in r.trace[|c.trace|..] <==> c.target.None? && Grew(c, r)
  {
    var r := AddPointToQueue(c, x, doorCanOpen);
    var started := if c.target.None? && Grew(c, r) then [StartedMoving] else [];
    assert StartedMoving in started <==> c.target.None? && Grew(c, r);
    if x.floorIndex != c.currentFloor {
      DropPrefix(c.trace, started);
    } else {
      var toggles := if doorCanOpen then [TogglesState(x, false)] else [];
      var rest := [SameFloorCalled] + toggles;
      assert StartedMoving !in rest;
      AppendAssoc(c.trace + started, [SameFloorCalled], toggles);
      AppendAssoc(c.trace, started, rest);
      DropPrefix(c.trace, started + rest);
    }
  }

  /** `n` successive arrivals, stopping early once the car is idle. */
  function Arrivals(c: Car, n: nat): (r: Car)
    ensures r.currentFloor == c.currentFloor && r.canMove == c.canMove
    ensures c.trace <= r.trace
    ensures n > 0 && c.target.Some? ==> |r.trace| >= |c.trace| + 2
    decreases n
  {
    if n == 0 || c.target.None? then c else Arrivals(Arrive(c), n - 1)
  }

  /** The notifications of serving the requests of `s` in order. */
  function Visits(s: seq<Req>, goingUp: bool): seq<Event> {
    if s == [] then [] else [ArrivalToggles(s[0], goingUp), Arrived] + Visits(s[1..], goingUp)
  }

  /** Arrivals preserve the invariant, however many there are. */
  lemma {:induction false} ArrivalsKeepInv(c: Car, n: nat)
    requires Inv(c)
    ensures Inv(Arrivals(c, n))
    decreases n
  {
    if n > 0 && c.target.Some? {
      ArriveKeepsInv(c);
      ArrivalsKeepInv(Arrive(c), n - 1);
    }
  }

  /**
    Serving the current sweep: arrivals empty the queue of the current
    direction, the other queue is left as it was, and the car then either
    turns around or goes idle.
   */
  lemma {:induction false} SweepEmptiesQueue(c: Car)
    requires Targeted(c) && c.target.Some?
    ensures var r := Arrivals(c, |Queue(c, c.dir)|);
      && Targeted(r)
      && Queue(r, c.dir) == []
      && Queue(r, Opposite(c.dir)) == Queue(c, Opposite(c.dir))
      && (r.target.Some? ==> r.dir == Opposite(c.dir))
    decreases |Queue(c, c.dir)|
  {
    var q := Queue(c, c.dir);
    var a := Arrive(c);
    if |q| == 1 {
      SweepLast(c, a);
      assert Arrivals(c, 1) == a;
    } else {
      SweepStep(c, a);
      SweepEmptiesQueue(a);
      assert Arrivals(c, |q|) == Arrivals(a, |q| - 1);
    }
  }

  /** The same sweep visits the queue of the current direction head first. */
  lemma {:induction false} SweepServesQueueInOrder(c: Car)
    requires Targeted(c) && c.target.Some?
    ensures Arrivals(c, |Queue(c, c.dir)|).trace == c.trace + Visits(Queue(c, c.dir), c.dir == Up)
    decreases |Queue(c, c.dir)|
  {
    var q := Queue(c, c.dir);
    var a := Arrive(c);
    var step := [ArrivalToggles(q[0], c.dir == Up), Arrived];
    assert Visits(q, c.dir == Up) == step + Visits(q[1..], c.dir == Up);
    if |q| == 1 {
      SweepLast(c, a);
      assert Arrivals(c, 1) == a;
      assert Visits(q[1..], c.dir == Up) == [];
    } else {
      SweepStep(c, a);
      SweepServesQueueInOrder(a);
      var r := Arrivals(a, |q| - 1);
      assert Arrivals(c, |q|) == r;
      AppendAssoc(c.trace, step, Visits(q[1..], c.dir == Up));
    }
  }

  /** The arrival that empties the queue of a sweep turns the car around or idles it. */
  lemma SweepLast(c: Car, a: Car)
    requires Targeted(c) && c.target.Some? && |Queue(c, c.dir)| == 1
    requires a == Arrive(c)
    ensures Targeted(a) && Queue(a, c.dir) == []
    ensures Queue(a, Opposite(c.dir)) == Queue(c, Opposite(c.dir))
    ensures a.target.Some? ==> a.dir == Opposite(c.dir)
    ensures a.trace == c.trace + [ArrivalToggles(Queue(c, c.dir)[0], c.dir == Up), Arrived]
  {
  }

  /** One arrival in the middle of a sweep keeps the direction and shortens its queue. */
  lemma SweepStep(c: Car, a: Car)
    requires Targeted(c) && c.target.Some? && |Queue(c, c.dir)| > 1
    requires a == Arrive(c)
    ensures a.target.Some? && a.dir == c.dir && Targeted(a)
    ensures Queue(a, a.dir) == Queue(c, c.dir)[1..]
    ensures Queue(a, Opposite(a.dir)) == Queue(c, Opposite(c.dir))
    ensures a.trace == c.trace + [ArrivalToggles(Queue(c, c.dir)[0], c.dir == Up), Arrived]
  {
  }

  /**
    The sweep (SCAN) order: with no new calls, the car serves its whole
    current queue in queue order, then turns around and serves the other
    queue in its order, one arrival per request, and ends idle.
   */
  lemma ScanOrder(c: Car)
    requires Targeted(c) && c.target.Some?
    ensures var mid := Arrivals(c, |Queue(c, c.dir)|);
      var r := Arrivals(mid, |Queue(c, Opposite(c.dir))|);
      && r.target.None? && r.up == [] && r.down == []
      && r.trace == c.trace
           + Visits(Queue(c, c.dir), c.dir == Up)
           + Visits(Queue(c, Opposite(c.dir)), c.dir != Up)
  {
    SweepEmptiesQueue(c);
    SweepServesQueueInOrder(c);
    var mid := Arrivals(c, |Queue(c, c.dir)|);
    var n := |Queue(c, Opposite(c.dir))|;
    if mid.target.Some? {
      assert Queue(mid, mid.dir) == Queue(c, Opposite(c.dir));
      assert Queue(mid, Opposite(mid.dir)) == [];
      SweepEmptiesQueue(mid);
      SweepServesQueueInOrder(mid);
    } else {
      assert n == 0;
      assert Arrivals(mid, n) == mid;
      assert Visits(Queue(c, Opposite(c.dir)), c.dir != Up) == [];
    }
  }

  /**
    On an ordered upward queue, adding a call and re-sorting the whole queue
    is the same as inserting the call at its place.
   */
  lemma AddingToUpListInsertsInPlace(c: Car, x: Req)
    requires Ascending(c.up) && x !in c.up
    ensures AddingToUpList(c, x).up == Insert(c.up, x)
  {
    assert (c.up + [x])[..|c.up|] == c.up;
    SortAscendingKeepsOrdered(c.up);
  }

  /** A call above the car for a new request is inserted at its place in the upward queue. */
  lemma CallAboveInsertsInPlace(c: Car, x: Req, doorCanOpen: bool)
    requires Ascending(c.up) && c.currentFloor < x.floorIndex && x !in c.up
    ensures var r := AddPointToQueue(c, x, doorCanOpen);
      && r.up == Insert(c.up, x) && r.down == c.down
      && r.currentFloor == c.currentFloor
      && r.trace == c.trace + (if c.target.None? then [StartedMoving] else [])
      && (c.down == [] ==> r.dir == Up && r.target == Some(r.up[0]))
  {
    AddingToUpListInsertsInPlace(c, x);
  }

  /** A call above an idle, empty car becomes its only request and its target. */
  lemma FirstCallAbove(c: Car, x: Req, r: Car)
    requires c.target.None? && c.up == [] && c.down == [] && c.currentFloor < x.floorIndex
    requires r == AddPointToQueue(c, x, false)
    ensures r.up == [x] && r.down == [] && r.target == Some(x) && r.dir == Up
    ensures r.currentFloor == c.currentFloor && r.trace == c.trace + [StartedMoving]
  {
    CallAboveInsertsInPlace(c, x, false);
  }

  /** A second call above the car, below the one queued, becomes the new target. */
  lemma SecondCallAboveBelowHead(c: Car, x: Req, m: Req, r: Car)
    requires c.target == Some(m) && c.up == [m] && c.down == [] && c.dir == Up
    requires c.currentFloor < x.floorIndex < m.floorIndex
    requires r == AddPointToQueue(c, x, false)
    ensures r.up == [x, m] && r.down == [] && r.target == Some(x) && r.dir == Up
    ensures r.currentFloor == c.currentFloor && r.trace == c.trace
  {
    CallAboveInsertsInPlace(c, x, false);
    InsertAtFront(c.up, x);
    assert [x] + [m] == [x, m];
  }

  lemma InsertAfterPair(a: Req, b: Req, x: Req)
    requires a.floorIndex < b.floorIndex < x.floorIndex
    ensures Ascending([a, b]) && Insert([a, b], x) == [a, b, x]
  {
    assert [a, b][1..] == [b] && [b][1..] == [];
    assert Insert([], x) == [x];
    assert Insert([b], x) == [b, x];
  }

  /** A third call above both queued ones goes to the back of the upward queue. */
  lemma ThirdCallAboveAll(c: Car, x: Req, a: Req, b: Req, r: Car)
    requires c.target == Some(a) && c.up == [a, b] && c.down == [] && c.dir == Up
    requires c.currentFloor < a.floorIndex < b.floorIndex < x.floorIndex
    requires r == AddPointToQueue(c, x, false)
    ensures r.up == [a, b, x] && r.down == [] && r.target == Some(a) && r.dir == Up
    ensures r.currentFloor == c.currentFloor && r.trace == c.trace
  {
    InsertAfterPair(a, b, x);
    CallAboveInsertsInPlace(c, x, false);
  }

  /**
    From an idle car, calls for three floors above it arriving middle,
    lowest, highest are queued upwards in floor order with the lowest as
    the target, and only one start is announced (for example floors 3, 1
    and 5 called at floor 0).
   */
  lemma ScenarioThreeCallsAbove(c: Car, lo: Req, mid: Req, hi: Req, r1: Car, r2: Car, r3: Car)
    requires c.target.None? && c.up == [] && c.down == []
    requires c.currentFloor < lo.floorIndex < mid.floorIndex < hi.floorIndex
    requires r1 == AddPointToQueue(c, mid, false)
    requires r2 == AddPointToQueue(r1, lo, false)
    requires r3 == AddPointToQueue(r2, hi, false)
    ensures r3.up == [lo, mid, hi] && r3.down == []
    ensures r3.target == Some(lo) && r3.dir == Up
    ensures r3.trace == c.trace + [StartedMoving]
  {
    FirstCallAbove(c, mid, r1);
    SecondCallAboveBelowHead(r1, lo, mid, r2);
    ThirdCallAboveAll(r2, hi, lo, mid, r3);
  }

  /**
    Continuing the example: three arrivals serve the queued floors lowest
    first, each with an upward arrival callback, and leave the car idle.
   */
  lemma ScenarioServeThreeAbove(c: Car, lo: Req, mid: Req, hi: Req)
    requires Targeted(c) && c.up == [lo, mid, hi] && c.down == []
    ensures Arrive(c).target == Some(mid)
    ensures Arrive(Arrive(c)).target == Some(hi)
    ensures Arrive(Arrive(Arrive(c))).target.None?
    ensures Arrive(Arrive(Arrive(c))).trace == c.trace +
      [ArrivalToggles(lo, true), Arrived,
       ArrivalToggles(mid, true), Arrived,
       ArrivalToggles(hi, true), Arrived]
  {
    var a1 := Arrive(c);
    SweepStep(c, a1);
    assert a1.up == [mid, hi];
    var a2 := Arrive(a1);
    SweepStep(a1, a2);
    assert a2.up == [hi];
    var a3 := Arrive(a2);
    SweepLast(a2, a3);
    var s1 := [ArrivalToggles(lo, true), Arrived];
    var s2 := [ArrivalToggles(mid, true), Arrived];
    var s3 := [ArrivalToggles(hi, true), Arrived];
    AppendAssoc(c.trace, s1, s2);
    AppendAssoc(c.trace, s1 + s2, s3);
    assert s1 + s2 + s3 == [ArrivalToggles(lo, true), Arrived,
      ArrivalToggles(mid, true), Arrived, ArrivalToggles(hi, true), Arrived];
  }

  /**
    A car at floor 5 heading up with an empty upward queue and a downward
    queue of floors 3 and 1 turns down and targets floor 3, not 1.
   */
  lemma ScenarioTurnAround(c: Car)
    requires c.currentFloor == 5 && c.dir == Up && c.up == []
    requires c.down == [Req(3, 3), Req(1, 1)]
    ensures SetTargetFloor(c).dir == Down
    ensures SetTargetFloor(c).target == Some(Req(3, 3))
  {
  }
}

=== FILE: requests.dfy ===
/**
  Floor requests and the two orderings the elevator keeps them in.

  A request stands for one floor call point's data: the floor it asks for
  and an opaque handle to that floor's physical location. Two requests are
  the same request only when both parts agree, which is how a list of
  such records decides membership.
 */
module Requests {

  /** One pending stop: the floor index and an opaque location handle. */
  datatype Req = Req(floorIndex: int, handle: nat)

  /** Non-decreasing by floor index (the "up" queue order). */
  predicate Ascending(s: seq<Req>) {
    forall i, j :: 0 <= i < j < |s| ==> s[i].floorIndex <= s[j].floorIndex
  }

  /** Non-increasing by floor index (the "down" queue order). */
  predicate Descending(s: seq<Req>) {
    forall i, j :: 0 <= i < j < |s| ==> s[i].floorIndex >= s[j].floorIndex
  }

  /** No request occurs twice in `s`. */
  predicate NoDup(s: seq<Req>) {
    forall i, j :: 0 <= i < j < |s| ==> s[i] != s[j]
  }

  /** Appending a request not yet present keeps a queue duplicate-free. */
  lemma NoDupAppend(s: seq<Req>, x: Req)
    requires NoDup(s) && x !in s
    ensures NoDup(s + [x])
  {
    forall i, j | 0 <= i < j < |s + [x]|
      ensures (s + [x])[i] != (s + [x])[j]
    {
      if j == |s| {
        assert (s + [x])[i] == s[i];
      }
    }
  }

  /** A non-empty sequence is its prefix followed by its last element. */
  lemma SplitLast<T>(s: seq<T>)
    requires s != []
    ensures s == s[..|s| - 1] + [s[|s| - 1]]
  {
  }

  /** Places `x` after every element whose floor index is not above its own. */
  function Insert(s: seq<Req>, x: Req): (r: seq<Req>)
    requires Ascending(s)
    ensures Ascending(r)
    ensures |r| == |s| + 1
    ensures r[0] == x || (s != [] && r[0] == s[0])
  {
    if s == [] || x.floorIndex < s[0].floorIndex then
      [x] + s
    else
      var rest := Insert(s[1..], x);
      assert Ascending([s[0]] + rest);
      [s[0]] + rest
  }

  /** Inserting adds exactly `x` and loses nothing. */
  lemma {:induction false} InsertPermutes(s: seq<Req>, x: Req)
    requires Ascending(s)
    ensures multiset(Insert(s, x)) == multiset(s) + multiset{x}
    decreases |s|
  {
    if s != [] && x.floorIndex >= s[0].floorIndex {
      InsertPermutes(s[1..], x);
      assert s == [s[0]] + s[1..];
    }
  }

  /** Inserting a request not yet present keeps a queue duplicate-free. */
  lemma {:induction false} InsertKeepsNoDup(s: seq<Req>, x: Req)
    requires Ascending(s) && NoDup(s) && x !in s
    ensures NoDup(Insert(s, x))
    decreases |s|
  {
    if s != [] && x.floorIndex >= s[0].floorIndex {
      var rest := Insert(s[1..], x);
      InsertKeepsNoDup(s[1..], x);
      InsertPermutes(s[1..], x);
      TailKeepsOrder(s);
      assert s[0] !in multiset(rest);
      NoDupConsFresh(rest, s[0]);
    } else if s != [] {
      NoDupConsFresh(s, x);
    }
  }

  lemma NoDupConsFresh(s: seq<Req>, x: Req)
    requires NoDup(s) && x !in s
    ensures NoDup([x] + s)
  {
    var r := [x] + s;
    forall i, j | 0 <= i < j < |r|
      ensures r[i] != r[j]
    {
      if i == 0 {
        assert r[j] == s[j - 1];
      }
    }
  }

  /**
    Sorts by floor index, ascending, as a stable insertion sort. The
    ordering among requests of equal floor index is one of those a
    general-purpose sort may produce.
   */
  function SortAscending(s: seq<Req>): (r: seq<Req>)
    ensures Ascending(r)
    ensures |r| == |s|
    decreases |s|
  {
    if s == [] then []
    else Insert(SortAscending(s[..|s| - 1]), s[|s| - 1])
  }

  /** Sorting keeps exactly the requests it was given. */
  lemma {:induction false} SortAscendingPermutes(s: seq<Req>)
    ensures multiset(SortAscending(s)) == multiset(s)
    decreases |s|
  {
    if s != [] {
      var init := s[..|s| - 1];
      var last := s[|s| - 1];
      var sorted := SortAscending(init);
      SortAscendingPermutes(init);
      InsertPermutes(sorted, last);
      assert SortAscending(s) == Insert(sorted, last);
      SplitLast(s);
      assert multiset(s) == multiset(init) + multiset{last};
    }
  }

  /** Sorting a duplicate-free queue keeps it duplicate-free. */
  lemma {:induction false} SortAscendingKeepsNoDup(s: seq<Req>)
    requires NoDup(s)
    ensures NoDup(SortAscending(s))
    decreases |s|
  {
    if s != [] {
      var init := s[..|s| - 1];
      var last := s[|s| - 1];
      SplitLast(s);
      assert NoDup(init) && last !in init by {
        forall i, j | 0 <= i < j < |init|
          ensures init[i] != init[j]
        {
          assert init[i] == s[i] && init[j] == s[j];
        }
      }
      SortAscendingKeepsNoDup(init);
      SortAscendingPermutes(init);
      assert last !in multiset(SortAscending(init));
      InsertKeepsNoDup(SortAscending(init), last);
    }
  }

  /** The sequence read back to front. */
  function Reverse<T>(s: seq<T>): (r: seq<T>)
    ensures |r| == |s|
    ensures forall i :: 0 <= i < |r| ==> r[i] == s[|s| - 1 - i]
    decreases |s|
  {
    if s == [] then []
    else [s[|s| - 1]] + Reverse(s[..|s| - 1])
  }

  /** Reversing keeps exactly the elements it was given. */
  lemma {:induction false} ReversePermutes<T>(s: seq<T>)
    ensures multiset(Reverse(s)) == multiset(s)
    decreases |s|
  {
    if s != [] {
      var init := s[..|s| - 1];
      ReversePermutes(init);
      SplitLast(s);
    }
  }

  /** Sorts ascending by floor index and then reverses the result. */
  function SortDescending(s: seq<Req>): (r: seq<Req>)
    ensures Descending(r)
    ensures |r| == |s|
  {
    var asc := SortAscending(s);
    var r := Reverse(asc);
    assert forall i :: 0 <= i < |r| ==> r[i] == asc[|asc| - 1 - i];
    r
  }

  lemma SortDescendingPermutes(s: seq<Req>)
    ensures multiset(SortDescending(s)) == multiset(s)
  {
    SortAscendingPermutes(s);
    ReversePermutes(SortAscending(s));
  }

  /** Sorting a duplicate-free queue downwards keeps it duplicate-free. */
  lemma SortDescendingKeepsNoDup(s: seq<Req>)
    requires NoDup(s)
    ensures NoDup(SortDescending(s))
  {
    var asc := SortAscending(s);
    SortAscendingKeepsNoDup(s);
    var r := SortDescending(s);
    assert r == Reverse(asc);
    forall i, j | 0 <= i < j < |r|
      ensures r[i] != r[j]
    {
      assert r[i] == asc[|asc| - 1 - i] && r[j] == asc[|asc| - 1 - j];
    }
  }

  /** Dropping the head keeps a queue ordered and duplicate-free. */
  lemma TailKeepsOrder(s: seq<Req>)
    requires s != []
    ensures Ascending(s) ==> Ascending(s[1..])
    ensures Descending(s) ==> Descending(s[1..])
    ensures NoDup(s) ==> NoDup(s[1..]) && s[0] !in s[1..]
  {
  }

  /** A request below the head of the queue goes to the front. */
  lemma InsertAtFront(s: seq<Req>, x: Req)
    requires Ascending(s) && s != [] && x.floorIndex < s[0].floorIndex
    ensures Insert(s, x) == [x] + s
  {
  }

  /** A request no lower than every queued one goes to the back. */
  lemma {:induction false} InsertAtBack(s: seq<Req>, x: Req)
    requires Ascending(s)
    requires forall i :: 0 <= i < |s| ==> s[i].floorIndex <= x.floorIndex
    ensures Insert(s, x) == s + [x]
    decreases |s|
  {
    if s != [] {
      InsertAtBack(s[1..], x);
      assert s == [s[0]] + s[1..];
    }
  }

  /** Sorting an already ordered queue leaves it exactly as it was. */
  lemma {:induction false} SortAscendingKeepsOrdered(s: seq<Req>)
    requires Ascending(s)
    ensures SortAscending(s) == s
    decreases |s|
  {
    if s != [] {
      var init := s[..|s| - 1];
      SortAscendingKeepsOrdered(init);
      InsertAtBack(init, s[|s| - 1]);
      SplitLast(s);
    }
  }
}

=== FILE: weapon.dfy ===
/**
  The ammunition, reload and fire-cooldown machine every weapon shares.

  Time is a real number of seconds. The frame's two clocks (the plain
  frame delta and the game's scaled delta), the wall-clock time of a shot
  and whether the game is in its Play state are parameters. The events a
  weapon raises are appended, in order, to its `trace`.
 */
module Weapon {

  /** Per-weapon settings: magazine size, seconds between shots, seconds to reload. */
  datatype Config = Config(maxAmmo: int, fireRate: real, reloadTime: real)

  /** The events a weapon raises, each carrying the ammo count it reports. */
  datatype WeaponEvent =
    | OnFire(ammo: int)
    | OnFireOutOfAmmo(ammo: int)
    | OnStartReload(ammo: int)
    | OnEndReload(ammo: int)

  /**
    `fireRateTimer` counts down and a shot is possible once it is negative;
    `reloadTimer` counts up while `reloading`; `lastShot` is the time of the
    most recent shot.
   */
  datatype Weapon = Weapon(
    ammo: int,
    fireRateTimer: real,
    reloadTimer: real,
    reloading: bool,
    lastShot: real,
    trace: seq<WeaponEvent>)

  /** The magazine holds between none and a full load, and is empty while reloading. */
  predicate Inv(cfg: Config, w: Weapon) {
    0 <= w.ammo <= cfg.maxAmmo && (w.reloading ==> w.ammo == 0)
  }

  /** The cooldown since the previous shot has run out. */
  predicate CooledDown(w: Weapon) {
    w.fireRateTimer < 0.0
  }

  /** There is a round to fire and no reload in progress. */
  predicate Loaded(w: Weapon) {
    w.ammo > 0 && !w.reloading
  }

  /** A freshly initialised weapon: full magazine, ready to fire at once. */
  function Awake(cfg: Config): (w: Weapon)
    ensures w.ammo == cfg.maxAmmo && !w.reloading && w.trace == []
    ensures w.fireRateTimer == 0.0 && w.reloadTimer == 0.0
    ensures cfg.maxAmmo >= 0 <==> Inv(cfg, w)
  {
    Weapon(cfg.maxAmmo, 0.0, 0.0, false, 0.0, [])
  }

  /** Restarts the cooldown and records the time of the shot. */
  function HandleFiring(cfg: Config, w: Weapon, now: real): (r: Weapon)
    ensures r.fireRateTimer == cfg.fireRate && r.lastShot == now
    ensures r.(fireRateTimer := w.fireRateTimer, lastShot := w.lastShot) == w
  {
    w.(fireRateTimer := cfg.fireRate, lastShot := now)
  }

  /**
    Pulling the trigger. Before the cooldown has run out nothing happens.
    Afterwards a loaded weapon fires (spending a round only in Play),
    restarts its cooldown and raises OnFire with the remaining ammo; an
    empty or reloading weapon only raises OnFireOutOfAmmo.
   */
  function Fire(cfg: Config, w: Weapon, playing: bool, now: real): (r: Weapon)
    ensures !CooledDown(w) ==> r == w
    ensures CooledDown(w) && Loaded(w) ==>
      && r.ammo == (if playing then w.ammo - 1 else w.ammo)
      && r.fireRateTimer == cfg.fireRate && r.lastShot == now
      && r.reloading == w.reloading && r.reloadTimer == w.reloadTimer
      && r.trace == w.trace + [OnFire(r.ammo)]
    ensures CooledDown(w) && !Loaded(w) ==>
      r.(trace := w.trace) == w && r.trace == w.trace + [OnFireOutOfAmmo(w.ammo)]
    ensures Inv(cfg, w) ==> Inv(cfg, r)
  {
    if !CooledDown(w) then
      w
    else if Loaded(w) then
      var spent := if playing then w.(ammo := w.ammo - 1) else w;
      var fired := HandleFiring(cfg, spent, now);
      fired.(trace := fired.trace + [OnFire(fired.ammo)])
    else
      w.(trace := w.trace + [OnFireOutOfAmmo(w.ammo)])
  }

  /**
    Starting a reload: only in Play, only when not already reloading and
    the magazine is not full. The magazine is emptied, the reload clock
    restarted and OnStartReload raised; otherwise nothing happens.
   */
  function Reload(cfg: Config, w: Weapon, playing: bool): (r: Weapon)
    ensures !(playing && !w.reloading && w.ammo < cfg.maxAmmo) ==> r == w
    ensures playing && !w.reloading && w.ammo < cfg.maxAmmo ==>
      && r.reloading && r.ammo == 0 && r.reloadTimer == 0.0
      && r.fireRateTimer == w.fireRateTimer && r.lastShot == w.lastShot
      && r.trace == w.trace + [OnStartReload(0)]
    ensures Inv(cfg, w) ==> Inv(cfg, r)
  {
    if playing && !w.reloading && w.ammo < cfg.maxAmmo then
      var started := w.(reloadTimer := 0.0, reloading := true, ammo := 0);
      started.(trace := started.trace + [OnStartReload(started.ammo)])
    else
      w
  }

  /** The basic reload refills the magazine. */
  function ReloadMechanics(cfg: Config, w: Weapon): (r: Weapon)
    ensures r.ammo == cfg.maxAmmo
    ensures r.(ammo := w.ammo) == w
  {
    w.(ammo := cfg.maxAmmo)
  }

  /** The reload finishes in the step its clock passes the reload time. */
  predicate ReloadDue(cfg: Config, w: Weapon, scaledDelta: real) {
    w.reloadTimer + scaledDelta > cfg.reloadTime
  }

  /**
    One reload step: the reload clock advances by the scaled delta. When it
    passes the reload time the magazine is refilled, OnEndReload is raised
    with the new ammo count and the reload is over.
   */
  function Reloading(cfg: Config, w: Weapon, scaledDelta: real): (r: Weapon)
    ensures r.reloadTimer == w.reloadTimer + scaledDelta
    ensures r.fireRateTimer == w.fireRateTimer && r.lastShot == w.lastShot
    ensures ReloadDue(cfg, w, scaledDelta) ==>
      && r.ammo == cfg.maxAmmo && !r.reloading
      && r.trace == w.trace + [OnEndReload(cfg.maxAmmo)]
    ensures !ReloadDue(cfg, w, scaledDelta) ==>
      r.ammo == w.ammo && r.reloading == w.reloading && r.trace == w.trace
    ensures Inv(cfg, w) ==> Inv(cfg, r)
  {
    var advanced := w.(reloadTimer := w.reloadTimer + scaledDelta);
    if advanced.reloadTimer > cfg.reloadTime then
      var refilled := ReloadMechanics(cfg, advanced);
      var announced := refilled.(trace := refilled.trace + [OnEndReload(refilled.ammo)]);
      announced.(reloading := false)
    else
      advanced
  }

  /**
    The weapon's part of one frame: the cooldown runs down by the frame
    delta, and a reload in progress advances by the scaled delta.
   */
  function Update(cfg: Config, w: Weapon, delta: real, scaledDelta: real): (r: Weapon)
    ensures r.fireRateTimer == w.fireRateTimer - delta
    ensures r.lastShot == w.lastShot
    ensures w.reloading ==> r.reloadTimer == w.reloadTimer + scaledDelta
    ensures w.reloading && ReloadDue(cfg, w, scaledDelta) ==>
      r.ammo == cfg.maxAmmo && !r.reloading && r.trace == w.trace + [OnEndReload(cfg.maxAmmo)]
    ensures w.reloading && !ReloadDue(cfg, w, scaledDelta) ==>
      r.ammo == w.ammo && r.reloading && r.trace == w.trace
    ensures !w.reloading ==> r.(fireRateTimer := w.fireRateTimer) == w
    ensures Inv(cfg, w) ==> Inv(cfg, r)
  {
    var cooled := w.(fireRateTimer := w.fireRateTimer - delta);
    if cooled.reloading then Reloading(cfg, cooled, scaledDelta) else cooled
  }
}

=== FILE: weapon_proofs.dfy ===
/**
  The weapon over many frames: the cooldown runs down by the elapsed frame
  time, and a reload ends exactly in the frame its scaled clock passes the
  reload time, refilling the magazine and announcing it once.
 */
module WeaponProofs {
  import opened Weapon

  /** One frame's two clocks. */
  datatype Frame = Frame(delta: real, scaledDelta: real)

  /** The weapon after the frames `fs`, one `Update` each. */
  function Run(cfg: Config, w: Weapon, fs: seq<Frame>): (r: Weapon)
    ensures r.lastShot == w.lastShot
    ensures Inv(cfg, w) ==> Inv(cfg, r)
    decreases |fs|
  {
    if fs == [] then w else Run(cfg, Update(cfg, w, fs[0].delta, fs[0].scaledDelta), fs[1..])
  }

  /** Total frame time of `fs`. */
  function Elapsed(fs: seq<Frame>): real
    decreases |fs|
  {
    if fs == [] then 0.0 else fs[0].delta + Elapsed(fs[1..])
  }

  /** Total scaled time of `fs`. */
  function ScaledTime(fs: seq<Frame>): real
    decreases |fs|
  {
    if fs == [] then 0.0 else fs[0].scaledDelta + ScaledTime(fs[1..])
  }

  /** Scaled time never runs backwards. */
  predicate Forward(fs: seq<Frame>) {
    forall i :: 0 <= i < |fs| ==> fs[i].scaledDelta >= 0.0
  }

  lemma {:induction false} ScaledTimeNonNegative(fs: seq<Frame>)
    requires Forward(fs)
    ensures ScaledTime(fs) >= 0.0
    decreases |fs|
  {
    if fs != [] {
      assert Forward(fs[1..]) by {
        forall i | 0 <= i < |fs[1..]|
          ensures fs[1..][i].scaledDelta >= 0.0
        {
          assert fs[1..][i] == fs[i + 1];
        }
      }
      ScaledTimeNonNegative(fs[1..]);
    }
  }

  /** The cooldown falls by exactly the frame time that has passed. */
  lemma {:induction false} RunCoolsDown(cfg: Config, w: Weapon, fs: seq<Frame>)
    ensures Run(cfg, w, fs).fireRateTimer == w.fireRateTimer - Elapsed(fs)
    decreases |fs|
  {
    if fs != [] {
      RunCoolsDown(cfg, Update(cfg, w, fs[0].delta, fs[0].scaledDelta), fs[1..]);
    }
  }

  /** Frames alone never start a reload, change the ammo or raise events. */
  lemma {:induction false} RunWhileNotReloading(cfg: Config, w: Weapon, fs: seq<Frame>)
    requires !w.reloading
    ensures var r := Run(cfg, w, fs);
      !r.reloading && r.ammo == w.ammo && r.trace == w.trace
    decreases |fs|
  {
    if fs != [] {
      RunWhileNotReloading(cfg, Update(cfg, w, fs[0].delta, fs[0].scaledDelta), fs[1..]);
    }
  }

  /**
    A reload in progress is still in progress after at least one frame
    exactly when its clock has not passed the reload time; once it has,
    the magazine is full and OnEndReload has been raised exactly once.
   */
  lemma {:induction false} ReloadEndsWhenTimePasses(cfg: Config, w: Weapon, fs: seq<Frame>)
    requires w.reloading && Forward(fs)
    ensures var r := Run(cfg, w, fs);
      && (r.reloading <==> fs == [] || w.reloadTimer + ScaledTime(fs) <= cfg.reloadTime)
      && (r.reloading ==> r.ammo == w.ammo && r.trace == w.trace)
      && (!r.reloading ==> r.ammo == cfg.maxAmmo && r.trace == w.trace + [OnEndReload(cfg.maxAmmo)])
    decreases |fs|
  {
    if fs != [] {
      var f := fs[0];
      var w1 := Update(cfg, w, f.delta, f.scaledDelta);
      assert Forward(fs[1..]) by {
        forall i | 0 <= i < |fs[1..]|
          ensures fs[1..][i].scaledDelta >= 0.0
        {
          assert fs[1..][i] == fs[i + 1];
        }
      }
      assert Run(cfg, w, fs) == Run(cfg, w1, fs[1..]);
      if ReloadDue(cfg, w, f.scaledDelta) {
        RunWhileNotReloading(cfg, w1, fs[1..]);
        ScaledTimeNonNegative(fs[1..]);
      } else {
        ReloadEndsWhenTimePasses(cfg, w1, fs[1..]);
      }
    }
  }

  /**
    After a shot the trigger does nothing until more than `fireRate`
    seconds of frame time have passed.
   */
  lemma CooldownBlocksNextShot(cfg: Config, w: Weapon, fs: seq<Frame>, playing: bool, now: real)
    requires w.fireRateTimer == cfg.fireRate
    requires Elapsed(fs) <= cfg.fireRate
    ensures var r := Run(cfg, w, fs);
      Fire(cfg, r, playing, now) == r
  {
    RunCoolsDown(cfg, w, fs);
  }

  /**
    A reload still in progress after at least one frame has not yet seen
    its clock pass the reload time, and has neither refilled nor announced.
   */
  lemma {:induction false} StillReloadingBeforeTime(cfg: Config, w: Weapon, fs: seq<Frame>)
    requires w.reloading && fs != []
    ensures var r := Run(cfg, w, fs);
      r.reloading ==>
        && w.reloadTimer + ScaledTime(fs) <= cfg.reloadTime
        && r.ammo == w.ammo && r.trace == w.trace
    decreases |fs|
  {
    var f := fs[0];
    var w1 := Update(cfg, w, f.delta, f.scaledDelta);
    assert Run(cfg, w, fs) == Run(cfg, w1, fs[1..]);
    if ReloadDue(cfg, w, f.scaledDelta) {
      RunWhileNotReloading(cfg, w1, fs[1..]);
    } else if fs[1..] != [] {
      StillReloadingBeforeTime(cfg, w1, fs[1..]);
    }
  }

  /**
    A reload that is over after the frames ended with a full magazine and
    exactly one OnEndReload, whatever the frames' clocks.
   */
  lemma {:induction false} EndedReloadRefilled(cfg: Config, w: Weapon, fs: seq<Frame>)
    requires w.reloading
    ensures var r := Run(cfg, w, fs);
      !r.reloading ==> r.ammo == cfg.maxAmmo && r.trace == w.trace + [OnEndReload(cfg.maxAmmo)]
    decreases |fs|
  {
    if fs != [] {
      var f := fs[0];
      var w1 := Update(cfg, w, f.delta, f.scaledDelta);
      assert Run(cfg, w, fs) == Run(cfg, w1, fs[1..]);
      if ReloadDue(cfg, w, f.scaledDelta) {
        RunWhileNotReloading(cfg, w1, fs[1..]);
      } else {
        EndedReloadRefilled(cfg, w1, fs[1..]);
      }
    }
  }

  /**
    A full reload cycle: starting a reload in Play on a magazine that is
    not full, then playing frames whose scaled time passes the reload
    time, ends with a full magazine, no reload in progress, and exactly
    one start and one end announced.
   */
  lemma ReloadCycle(cfg: Config, w: Weapon, fs: seq<Frame>)
    requires !w.reloading && w.ammo < cfg.maxAmmo
    requires fs != [] && ScaledTime(fs) > cfg.reloadTime
    ensures var r := Run(cfg, Reload(cfg, w, true), fs);
      && !r.reloading && r.ammo == cfg.maxAmmo
      && r.trace == w.trace + [OnStartReload(0), OnEndReload(cfg.maxAmmo)]
  {
    var started := Reload(cfg, w, true);
    StillReloadingBeforeTime(cfg, started, fs);
    EndedReloadRefilled(cfg, started, fs);
    assert w.trace + [OnStartReload(0)] + [OnEndReload(cfg.maxAmmo)]
      == w.trace + [OnStartReload(0), OnEndReload(cfg.maxAmmo)];
  }
}
